=== FILE: README.md ===
# JPA service provider: the persistence-unit factory cache

`JpaServiceProvider` is the Weld `JpaInjectionServices` implementation of the
jpa-bundle for Dropwizard. Its own logic is a process-wide cache from
persistence-unit name to `EntityManagerFactory`:

- `resolvePersistenceUnit` takes the lock, looks the name up, and on a miss
  calls `Persistence.createEntityManagerFactory(name)`, stores the factory and
  returns it;
- `resolvePersistenceContext` resolves the unit and asks the factory for a
  new `EntityManager` on every call;
- `cleanup` calls `close()` on every cached factory;
- the `ResourceReference`s handed to the container delegate `getInstance` to
  the two resolve operations and do nothing on `release`.

This project models that cache as a functional state machine and proves what
it guarantees. The state is a `Registry`: the map `emfs` plus logs of every
call into foreign code. The logs are the bootstrap calls with their outcomes,
the `close()` calls, and a count of entity managers handed out. Each operation
is a pure function from a registry to a `Step`: the next registry plus what the
call returned or threw.

The foreign calls are abstracted into a `Provider` value:

- `build(name, k)` is the outcome of the `k`-th bootstrap call;
- `closeThrows(h, n)` says whether `close()` throws on a factory on which `close()` has already been called `n` times;
- `deriveThrows(h, n)` says the same for `createEntityManager()`.

A factory's identity is the index of the bootstrap call that produced it, so a
built factory is always a new object. Two providers are spelled out:

- `Lenient` tolerates closing a closed factory;
- `Strict` throws `IllegalStateException` on a closed factory, as the JPA interface allows.

Files:
- `foreign.dfy`: module `Foreign`, the foreign objects, the errors and the provider.
- `registry.dfy`: module `ServiceProvider`, the state, the invariant `Valid`, `Resolve`, `ResolveContext` and `Cleanup`.
- `properties.dfy`: module `CacheProperties`, lemmas relating calls: memoisation, at-most-once construction, failure without poisoning, and cleanup's effect.
- `references.dfy`: module `ResourceReferences`, the reference wrappers and the unit-name lookup.
- `lifecycle.dfy`: module `Lifecycle`, arbitrary histories of calls and what holds along all of them.

## Behaviour of the code worth knowing

- The lock is taken on every resolve. There is no unlocked fast path, so each
  resolve is one atomic step.
- `cleanup` does not clear the map and does not take the lock. A second
  `cleanup` calls `close()` on every factory again. With a lenient provider
  each factory is closed twice (`CleanupTwiceClosesTwice`). With a strict
  provider the second cleanup throws at its first factory
  (`StrictSecondCleanupThrows`). A second `cleanup` is therefore not a no-op.
- A resolve after a `cleanup` that completed returns the closed factory and builds nothing
  (`ResolveAfterCleanupIsStale`). It does not reconstruct the factory.
- `cleanup` iterates the `HashMap` entry set in an order Java leaves
  unspecified. The order is therefore a parameter, and every cleanup property
  holds for every order. An exception from one `close()` leaves the loop, so
  the factories after it are not closed.

## Model

| member | source | states |
|---|---|---|
| ServiceProvider.Resolve | src/main/java/com/cognodyne/dw/jpa/JpaServiceProvider.java:105-120 | A cached name returns its factory with no bootstrap call and no state change. An absent name costs exactly one bootstrap call for that name, and the result follows the bootstrap's outcome. A new factory is a fresh object stored under the name. A failure leaves the map unchanged and reports `ConstructionFailed` for the name. Only the requested key can be added, and no entry is replaced or removed. |
| ServiceProvider.ResolveContext | src/main/java/com/cognodyne/dw/jpa/JpaServiceProvider.java:100-103 | The cache changes exactly as the unit resolve changes it, so a cached unit is never rebuilt. Each success hands out an entity manager that was not handed out before, on the factory cached for the name. A build failure of the unit propagates unchanged. When the unit resolves, the call succeeds exactly when the factory's `createEntityManager()` returns, given how often that factory has been closed. Otherwise it fails with `DeriveFailed` for that factory. |
| ServiceProvider.FirstThrow | src/main/java/com/cognodyne/dw/jpa/JpaServiceProvider.java:55-57 | The turn at which the loop stops is the first turn, from the given one on, whose `close()` throws. When no remaining `close()` throws, it is the end of the order. |
| ServiceProvider.CloseFrom | src/main/java/com/cognodyne/dw/jpa/JpaServiceProvider.java:55-57 | Run from a given turn, the loop closes the factories in iteration order up to the first `close()` that throws, that one included. It then stops with `CloseFailed` for that factory. If no `close()` throws, it closes every remaining factory and succeeds. |
| ServiceProvider.CloseFromStart | src/main/java/com/cognodyne/dw/jpa/JpaServiceProvider.java:55-57 | Run from its first turn, the loop touches only the close log. It succeeds exactly when no turn throws, and then has closed every factory in order. Otherwise it fails with `CloseFailed` for the first throwing factory, having closed the factories up to and including it. |
| ServiceProvider.Cleanup | src/main/java/com/cognodyne/dw/jpa/JpaServiceProvider.java:52-58 | The map, the build log and the manager count are never changed. `cleanup` succeeds exactly when no `close()` in the iteration throws, and then every cached factory, taken in iteration order, gets one `close()`. Otherwise it fails with `CloseFailed` at the first factory whose `close()` throws, and the closes stop with that factory. |
| CacheProperties.ResolveKeepsValid | src/main/java/com/cognodyne/dw/jpa/JpaServiceProvider.java:111-116 | Resolve preserves the invariant. Each cached factory comes from a successful bootstrap call for its name. A cached name has had one successful build and an uncached name none. Only cached factories have been closed. |
| CacheProperties.ResolveContextKeepsValid | src/main/java/com/cognodyne/dw/jpa/JpaServiceProvider.java:101-103 | Resolving a context preserves the same invariant. |
| CacheProperties.CleanupKeepsValid | src/main/java/com/cognodyne/dw/jpa/JpaServiceProvider.java:53-58 | Cleanup preserves the invariant, whether it succeeds or throws. |
| CacheProperties.ResolveMemoises | src/main/java/com/cognodyne/dw/jpa/JpaServiceProvider.java:111-116 | After a successful resolve, resolving the same name again returns the same factory and leaves the state unchanged, whatever the provider would now do. |
| CacheProperties.ResolveTwiceBuildsOnce | src/main/java/com/cognodyne/dw/jpa/JpaServiceProvider.java:111-116 | When the first resolve of an absent name succeeds, a second resolve returns the identical factory. Together they make one bootstrap call for the name, and its successful build count is 1. |
| CacheProperties.FailureDoesNotPoison | src/main/java/com/cognodyne/dw/jpa/JpaServiceProvider.java:113-119 | After a failed build the name is still absent. The next resolve calls the bootstrap again, and its success follows that new call's outcome. |
| CacheProperties.ResolveIndependent | src/main/java/com/cognodyne/dw/jpa/JpaServiceProvider.java:111-115 | Resolving one name never caches another name and makes no bootstrap call for it. An uncached name still gets its own bootstrap call on its first resolve. |
| CacheProperties.LenientContextSucceeds | src/main/java/com/cognodyne/dw/jpa/JpaServiceProvider.java:101-103 | When `createEntityManager()` never throws, a context resolution succeeds exactly when its unit resolve does. |
| CacheProperties.ContextsAreFresh | src/main/java/com/cognodyne/dw/jpa/JpaServiceProvider.java:101-103 | Two successful context resolutions of one name give distinct entity managers on the same cached factory, at the cost of at most one bootstrap call. |
| CacheProperties.HandlesCount | src/main/java/com/cognodyne/dw/jpa/JpaServiceProvider.java:55-57 | Iterating duplicate-free names of a cache whose factories are distinct objects meets each factory exactly once. |
| CacheProperties.CleanupClosesEachOnce | src/main/java/com/cognodyne/dw/jpa/JpaServiceProvider.java:53-58 | With a provider whose `close()` returns normally, cleanup succeeds and keeps the map. Every cached factory is closed exactly once more, and no other object is closed. |
| CacheProperties.CleanupTwiceClosesTwice | src/main/java/com/cognodyne/dw/jpa/JpaServiceProvider.java:53-58 | Because the map is not cleared, two cleanups with a lenient provider close every cached factory exactly twice. |
| CacheProperties.StrictSecondCleanupThrows | src/main/java/com/cognodyne/dw/jpa/JpaServiceProvider.java:53-58 | With a strict provider, the first cleanup of a never-closed cache succeeds. The second throws `CloseFailed` at the first factory in the order, after calling `close()` on it a second time. |
| CacheProperties.StrictCleanupThrowsOnClosedFirst | src/main/java/com/cognodyne/dw/jpa/JpaServiceProvider.java:53-58 | With a strict provider, a cleanup whose first factory in the order is already closed calls `close()` on it once more and fails with `CloseFailed` for it, closing nothing else. |
| CacheProperties.StrictFirstCleanupSucceeds | src/main/java/com/cognodyne/dw/jpa/JpaServiceProvider.java:53-58 | With a strict provider, a cleanup of a cache none of whose factories has been closed succeeds. |
| CacheProperties.TurnSeesEarlierCloses | src/main/java/com/cognodyne/dw/jpa/JpaServiceProvider.java:55-57 | At each turn the loop has not yet closed that turn's factory, so its `close()` sees only the closes made before `cleanup` began. |
| CacheProperties.ResolveAfterCleanupIsStale | src/main/java/com/cognodyne/dw/jpa/JpaServiceProvider.java:111-116 | After a successful cleanup, resolving a cached name returns the factory just closed and makes no bootstrap call. |
| CacheProperties.StrictContextAfterCleanupThrows | src/main/java/com/cognodyne/dw/jpa/JpaServiceProvider.java:101-103 | After a successful cleanup with a strict provider, a context resolution fails with `DeriveFailed` on the stale factory and rebuilds nothing. |
| ResourceReferences.RegisterPersistenceContextInjectionPoint | src/main/java/com/cognodyne/dw/jpa/JpaServiceProvider.java:61-65 | Every reference the returned factory creates is a persistence-context reference to the registered injection point. |
| ResourceReferences.RegisterPersistenceUnitInjectionPoint | src/main/java/com/cognodyne/dw/jpa/JpaServiceProvider.java:81-85 | Every reference the returned factory creates is a persistence-unit reference to the registered injection point. |
| ResourceReferences.CreateResource | src/main/java/com/cognodyne/dw/jpa/JpaServiceProvider.java:64-65 | A created reference keeps the kind and the injection point of its factory. |
| ResourceReferences.UnitNameAsWritten | src/main/java/com/cognodyne/dw/jpa/JpaServiceProvider.java:107 | As written, the unit name comes from `@PersistenceContext` for every injection point. The lookup throws exactly when that annotation is missing, and otherwise returns its `unitName`. |
| ResourceReferences.UnitName | src/main/java/com/cognodyne/dw/jpa/JpaServiceProvider.java:107 | As intended, each kind of injection point reads the `unitName` of its own annotation. The lookup throws exactly when that annotation is missing. |
| ResourceReferences.UnitNameAgreesOnContextPoints | src/main/java/com/cognodyne/dw/jpa/JpaServiceProvider.java:107 | For persistence-context injection points, the intended lookup and the code's lookup agree. |
| ResourceReferences.UnitPointRejectedAsWritten | src/main/java/com/cognodyne/dw/jpa/JpaServiceProvider.java:107 | For an injection point carrying only `@PersistenceUnit`, the code's lookup throws and the intended lookup finds the name. |
| ResourceReferences.GetInstanceAsWritten | src/main/java/com/cognodyne/dw/jpa/JpaServiceProvider.java:61-98 | With the code's lookup, a reference whose injection point has no `@PersistenceContext` throws and leaves the state unchanged, whatever its kind. When `@PersistenceContext` is present, a unit reference resolves the unit named there and a context reference resolves a context for it. |
| ResourceReferences.GetInstance | src/main/java/com/cognodyne/dw/jpa/JpaServiceProvider.java:61-98 | `getInstance` of a unit reference is exactly a unit resolve of its annotated name. `getInstance` of a context reference is exactly a context resolution. A missing annotation throws and changes nothing. |
| ResourceReferences.GetInstanceAgreesOnContextReferences | src/main/java/com/cognodyne/dw/jpa/JpaServiceProvider.java:61-78 | For context references, the corrected `getInstance` behaves as the code does. |
| ResourceReferences.UnitReferenceThrowsAsWritten | src/main/java/com/cognodyne/dw/jpa/JpaServiceProvider.java:80-98 | For a unit reference on a field annotated only `@PersistenceUnit`, `getInstance` as written throws and touches nothing. The corrected version changes the state exactly as the unit resolve does. When that resolve succeeds, it returns its factory. |
| ResourceReferences.Release | src/main/java/com/cognodyne/dw/jpa/JpaServiceProvider.java:71-74 | `release` leaves the registry exactly as it was. |
| ResourceReferences.UnitReferencesShareFactory | src/main/java/com/cognodyne/dw/jpa/JpaServiceProvider.java:80-98 | Consider a unit reference whose `getInstance` succeeded. A `release` followed by another `getInstance` returns the same factory and leaves the state unchanged. |
| Lifecycle.ApplyStable | src/main/java/com/cognodyne/dw/jpa/JpaServiceProvider.java:53-120 | Any single call keeps the invariant. It never drops or replaces a cached factory, and it makes no bootstrap call for a name already cached. |
| Lifecycle.RunStable | src/main/java/com/cognodyne/dw/jpa/JpaServiceProvider.java:53-120 | Along any history of resolves, context resolutions and cleanups, every cached factory stays cached as the same object. The invariant holds throughout, and a cached name never costs another bootstrap call. |
| Lifecycle.ResolveMemoisedAfterAnyRun | src/main/java/com/cognodyne/dw/jpa/JpaServiceProvider.java:111-116 | Once a name is cached, a resolve after any later history returns the same factory without building. The name has been built exactly once. |
| Lifecycle.ReachableIsValid | src/main/java/com/cognodyne/dw/jpa/JpaServiceProvider.java:25-27 | Every state reachable from the freshly constructed singleton satisfies the invariant, so no name is ever built successfully more than once. |

## Findings

| source | as written | input that shows it | evidently intended | confidence | as-written member | corrected member |
|---|---|---|---|---|---|---|
| src/main/java/com/cognodyne/dw/jpa/JpaServiceProvider.java:107 | `resolvePersistenceUnit` reads the unit name from `@PersistenceContext`. It does so for references made by `registerPersistenceUnitInjectionPoint` too. | A field annotated only `@PersistenceUnit(unitName = "orders-db")`: `getAnnotation` returns null and `unitName()` throws a `NullPointerException`. | Unit injection points read `@PersistenceUnit.unitName`. | medium; not executed | ResourceReferences.UnitNameAsWritten (shown by ResourceReferences.UnitPointRejectedAsWritten and ResourceReferences.UnitReferenceThrowsAsWritten) | ResourceReferences.UnitName (used by ResourceReferences.GetInstance) |

## Left out

- Concurrency: the `ReentrantLock` and thread interleavings are not modelled. Every call is one atomic step. In the code `cleanup` runs without the lock, and its race with a concurrent resolve is not modelled.
- Each outcome of `close()` and `createEntityManager()` depends only on the factory and on how many times `close()` has been called on it. A transient `createEntityManager()` failure on an open factory therefore cannot be expressed. No property here depends on that restriction.
- Internals of the JPA bootstrap, `close()` and `createEntityManager()`: these are foreign calls. The `Provider` value stands in for them, and only their outcome (returns or throws) is modelled.
- A bootstrap that returns null instead of throwing is not modelled. The JPA bootstrap throws when it cannot build a unit, so the map never holds null.
- `getType` and `getService`: framework plumbing. The reflection via `Class.forName` and its logged error path are not modelled.
- `getInstance` of the singleton holder (lines 32-34): the model's `Initial` registry stands for the one instance.
- Object identity of `ResourceReferenceFactory` and `ResourceReference`: each `createResource` makes a new object in Java. Here references are plain values, since they hold no state.
- The entity manager's own lifetime and disposal are the container's concern, and the provider does not track them.
- Logging.
- `JpaBundle.java` (binding data sources into JNDI at startup) and `JpaConfiguration.java` (a configuration holder): framework glue with no logic of the cache's own.

=== FILE: foreign.dfy ===
/** The collaborators the service provider calls into but does not implement:
    the JPA bootstrap (`Persistence.createEntityManagerFactory`), the factory's
    `close` and `createEntityManager`, and the error raised when an injection
    point lacks the annotation looked up. Each is abstracted to the part of its behaviour the provider can observe. */
module Foreign {

  datatype Option<+T> = None | Some(value: T)

  /** An `EntityManagerFactory`. The provider never looks inside one; two
      factories are the same object exactly when they came from the same
      builder call, so `id` is the index of that call in the build log and
      `unit` is the persistence-unit name it was built for. */
  datatype Handle = Handle(id: nat, unit: string)

  /** An `EntityManager` produced by `factory.createEntityManager()`; `id`
      numbers the managers handed out, so each one is a distinct object. */
  datatype Manager = Manager(id: nat, factory: Handle)

  /** What one call of `Persistence.createEntityManagerFactory(name)` did. */
  datatype BuildResult = Built | BuildFailed(cause: string)

  /** The exceptions that reach the provider's callers. */
  datatype Error =
    | ConstructionFailed(name: string, cause: string)  // thrown by the JPA bootstrap
    | CloseFailed(handle: Handle)                       // thrown by `close()`
    | DeriveFailed(handle: Handle)                      // thrown by `createEntityManager()`
    | MissingAnnotation                                 // `getAnnotation(..)` returned null

  /** A call that either returns a value or throws. */
  datatype Result<+T> = Success(value: T) | Failure(error: Error)

  /** The JPA provider behind the three foreign calls.
      - `build(name, k)`: outcome of the `k`-th call into the bootstrap overall,
        so the same name may fail once and succeed on a later attempt;
      - `closeThrows(h, n)`: whether `h.close()` throws when `close()` has
        already been called on `h` `n` times, whether or not those calls threw;
      - `deriveThrows(h, n)`: whether `h.createEntityManager()` throws when
        `close()` has been called on `h` `n` times. */
  datatype Provider = Provider(
    build: (string, nat) -> BuildResult,
    closeThrows: (Handle, nat) -> bool,
    deriveThrows: (Handle, nat) -> bool)

  /** A provider that tolerates closing a closed factory and never refuses an
      entity manager. */
  function Lenient(build: (string, nat) -> BuildResult): Provider
  {
    Provider(build, (h, n) => false, (h, n) => false)
  }

  /** A provider that follows the letter of the JPA interface: `close()` and
      `createEntityManager()` throw `IllegalStateException` once the factory
      has been closed. */
  function Strict(build: (string, nat) -> BuildResult): Provider
  {
    Provider(build, (h, n) => n > 0, (h, n) => n > 0)
  }
}

=== FILE: lifecycle.dfy ===
/** Whole histories of calls into the provider, each call atomic (the lock
    serialises `resolvePersistenceUnit`), with `cleanup` allowed anywhere.
    Results are dropped: a thrown exception reaches only its own caller. */
module Lifecycle {
  import opened Foreign
  import opened ServiceProvider
  import CacheProperties

  /** One call into the provider. A cleanup names the iteration order the
      map presents at that moment. */
  datatype Call = ResolveUnit(name: string) | ResolveContextOf(name: string) | CleanupIn(order: seq<string>)

  /** A call that can be made in state `r`: a cleanup's order must list the
      keys cached at that point. */
  predicate Callable(r: Registry, c: Call)
  {
    c.CleanupIn? ==> Enumerates(c.order, r.emfs)
  }

  function Apply(r: Registry, p: Provider, c: Call): Registry
    requires Callable(r, c)
  {
    match c
    case ResolveUnit(n) => Resolve(r, p, n).reg
    case ResolveContextOf(n) => ResolveContext(r, p, n).reg
    case CleanupIn(order) => Cleanup(r, p, order).reg
  }

  /** Every call of the history is callable in the state it is made in. */
  predicate Admissible(r: Registry, p: Provider, calls: seq<Call>)
    decreases |calls|
  {
    calls == [] || (Callable(r, calls[0]) && Admissible(Apply(r, p, calls[0]), p, calls[1..]))
  }

  function Run(r: Registry, p: Provider, calls: seq<Call>): Registry
    requires Admissible(r, p, calls)
    decreases |calls|
  {
    if calls == [] then r else Run(Apply(r, p, calls[0]), p, calls[1..])
  }

  lemma AttemptsAppend(log: seq<Attempt>, a: Attempt, name: string)
    ensures Attempts(log + [a], name) == Attempts(log, name) + (if a.name == name then 1 else 0)
  {
    assert (log + [a])[..|log|] == log;
  }

  /** One call never drops or replaces a cached factory, keeps the
      invariant, and makes no bootstrap call for a name already cached. */
  lemma ApplyStable(r: Registry, p: Provider, c: Call, name: string)
    requires Valid(r)
    requires Callable(r, c)
    ensures var r' := Apply(r, p, c);
            && Extends(r.emfs, r'.emfs)
            && Valid(r')
            && (name in r.emfs ==> Attempts(r'.builds, name) == Attempts(r.builds, name))
  {
    match c
    case ResolveUnit(n) =>
      CacheProperties.ResolveKeepsValid(r, p, n);
      if n !in r.emfs {
        AttemptsAppend(r.builds, Attempt(n, Resolve(r, p, n).out.Success?), name);
      }
    case ResolveContextOf(n) =>
      CacheProperties.ResolveContextKeepsValid(r, p, n);
      if n !in r.emfs {
        AttemptsAppend(r.builds, Attempt(n, Resolve(r, p, n).out.Success?), name);
      }
    case CleanupIn(order) =>
      CacheProperties.CleanupKeepsValid(r, p, order);
      assert Apply(r, p, c).builds == r.builds;
  }

  /** Along any history: every factory once cached stays cached, as the
      same object; the invariant holds throughout (so no name is ever built
      successfully twice); and a cached name never costs another bootstrap
      call, whatever cleanups happen in between. */
  lemma {:induction false} RunStable(r: Registry, p: Provider, calls: seq<Call>, name: string)
    requires Valid(r)
    requires Admissible(r, p, calls)
    ensures var r' := Run(r, p, calls);
            && Extends(r.emfs, r'.emfs)
            && Valid(r')
            && (name in r.emfs ==> Attempts(r'.builds, name) == Attempts(r.builds, name))
    decreases |calls|
  {
    if calls != [] {
      var r1 := Apply(r, p, calls[0]);
      ApplyStable(r, p, calls[0], name);
      RunStable(r1, p, calls[1..], name);
    }
  }

  /** Memoisation over a whole history: once `name` is cached, a resolve at
      any later point returns the same factory without building, and the
      name has been built exactly once. */
  lemma ResolveMemoisedAfterAnyRun(r: Registry, p: Provider, q: Provider, calls: seq<Call>, name: string)
    requires Valid(r)
    requires Admissible(r, p, calls)
    requires name in r.emfs
    ensures var r' := Run(r, p, calls);
            && Resolve(r', q, name) == Step(r', Success(r.emfs[name]))
            && Builds(r'.builds, name) == 1
            && Attempts(r'.builds, name) == Attempts(r.builds, name)
  {
    RunStable(r, p, calls, name);
  }

  /** Every state reachable from the freshly constructed provider keeps the
      invariant: each cached name was built exactly once, each uncached name
      never, and only cached factories were ever closed. */
  lemma ReachableIsValid(p: Provider, calls: seq<Call>)
    requires Admissible(Initial, p, calls)
    ensures Valid(Run(Initial, p, calls))
    ensures forall n :: Builds(Run(Initial, p, calls).builds, n) <= 1
  {
    CacheProperties.InitialValid();
    RunStable(Initial, p, calls, "");
  }
}

=== FILE: properties.dfy ===
/** What the cache promises across calls: memoisation, at-most-once
    construction, failure without poisoning, fresh entity managers, and what
    `cleanup` does to the factories it leaves cached. */
module CacheProperties {
  import opened Foreign
  import opened ServiceProvider

  lemma InitialValid()
    ensures Valid(Initial)
  {
  }

  /** Resolving keeps the reachable-state invariant; in particular a name is
      never built successfully twice. */
  lemma ResolveKeepsValid(r: Registry, p: Provider, name: string)
    requires Valid(r)
    ensures Valid(Resolve(r, p, name).reg)
  {
    // Dafny finds this proof unaided; the steps below name the unchanged
    // entries and the closed factory's key, which keeps the proof cheap.
    var s := Resolve(r, p, name);
    if name !in r.emfs && s.out.Success? {
      forall n | n in s.reg.emfs
        ensures s.reg.emfs[n].id < |s.reg.builds| && s.reg.builds[s.reg.emfs[n].id] == Attempt(n, true)
      {
        if n != name {
          assert s.reg.builds[r.emfs[n].id] == r.builds[r.emfs[n].id];
        }
      }
      forall k | 0 <= k < |s.reg.closes| ensures s.reg.closes[k] in s.reg.emfs.Values {
        assert r.closes[k] in r.emfs.Values;
        var n :| n in r.emfs && r.emfs[n] == r.closes[k];
        assert s.reg.emfs[n] == r.closes[k];
      }
    } else if name !in r.emfs {
      forall n | n in s.reg.emfs
        ensures s.reg.builds[s.reg.emfs[n].id] == Attempt(n, true)
      {
        assert s.reg.builds[r.emfs[n].id] == r.builds[r.emfs[n].id];
      }
    }
  }

  lemma ResolveContextKeepsValid(r: Registry, p: Provider, name: string)
    requires Valid(r)
    ensures Valid(ResolveContext(r, p, name).reg)
  {
    ResolveKeepsValid(r, p, name);
  }

  /** The factories met along a duplicate-free list of names are pairwise
      distinct objects, so each one is met exactly once. */
  lemma {:induction false} HandlesCount(m: map<string, Handle>, order: seq<string>, h: Handle)
    requires forall i :: 0 <= i < |order| ==> order[i] in m
    requires forall i, j :: 0 <= i < j < |order| ==> order[i] != order[j]
    requires forall n :: n in m ==> m[n].unit == n
    ensures multiset(Handles(m, order))[h] == if h.unit in order && m[h.unit] == h then 1 else 0
  {
    if order != [] {
      assert Handles(m, order) == [m[order[0]]] + Handles(m, order[1..]);
      HandlesCount(m, order[1..], h);
      if h.unit == order[0] {
        assert h.unit !in order[1..] by {
          forall i | 0 <= i < |order[1..]| ensures order[1..][i] != order[0] {
            assert order[1..][i] == order[i + 1];
          }
        }
      } else {
        assert h.unit in order <==> h.unit in order[1..] by {
          if h.unit in order {
            var i :| 0 <= i < |order| && order[i] == h.unit;
            assert order[1..][i - 1] == h.unit;
          }
        }
      }
    }
  }

  lemma CleanupKeepsValid(r: Registry, p: Provider, order: seq<string>)
    requires Valid(r)
    requires Enumerates(order, r.emfs)
    ensures Valid(Cleanup(r, p, order).reg)
  {
  }

  /** Memoisation: once a resolve has returned a factory, resolving the same
      name again returns that same object, changes nothing and calls no
      bootstrap, whatever the provider would now do. */
  lemma ResolveMemoises(r: Registry, p: Provider, q: Provider, name: string)
    requires Resolve(r, p, name).out.Success?
    ensures var s := Resolve(r, p, name);
            Resolve(s.reg, q, name) == s
  {
  }

  /** When the first resolve of an absent name succeeds, a second resolve
      returns the identical factory: together they call the bootstrap once
      for the name, and it has been built successfully once. */
  lemma ResolveTwiceBuildsOnce(r: Registry, p: Provider, q: Provider, name: string)
    requires Valid(r)
    requires name !in r.emfs
    requires Resolve(r, p, name).out.Success?
    ensures var s1 := Resolve(r, p, name);
            var s2 := Resolve(s1.reg, q, name);
            && s2.out == s1.out
            && Attempts(s2.reg.builds, name) == Attempts(r.builds, name) + 1
            && Builds(s2.reg.builds, name) == 1
  {
  }

  /** A failed construction is not cached: the name stays absent, and the
      next resolve of it calls the bootstrap again, with the next call index. */
  lemma FailureDoesNotPoison(r: Registry, p: Provider, name: string)
    requires Resolve(r, p, name).out.Failure?
    ensures var s1 := Resolve(r, p, name);
            var s2 := Resolve(s1.reg, p, name);
            && name !in s1.reg.emfs
            && s2.reg.builds == r.builds + [Attempt(name, false), Attempt(name, s2.out.Success?)]
            && (s2.out.Success? <==> p.build(name, |r.builds| + 1).Built?)
  {
  }

  /** Per-name independence: resolving one name never builds another, and a
      name not yet built is still built on its own first resolve. */
  lemma ResolveIndependent(r: Registry, p: Provider, a: string, b: string)
    requires a != b
    requires b !in r.emfs
    ensures var s := Resolve(r, p, a);
            && b !in s.reg.emfs
            && Attempts(s.reg.builds, b) == Attempts(r.builds, b)
            && var t := Resolve(s.reg, p, b);
               |t.reg.builds| == |s.reg.builds| + 1 && t.reg.builds[|s.reg.builds|].name == b
  {
  }

  /** With a provider that never refuses an entity manager, a context
      resolution succeeds exactly when its unit resolves, so every call whose
      unit is cached or builds yields a new entity manager. */
  lemma LenientContextSucceeds(r: Registry, build: (string, nat) -> BuildResult, name: string)
    ensures ResolveContext(r, Lenient(build), name).out.Success? <==>
              Resolve(r, Lenient(build), name).out.Success?
  {
  }

  /** Two successful context resolutions of one name give two distinct entity
      managers on the one cached factory, and cost at most one bootstrap call. */
  lemma ContextsAreFresh(r: Registry, p: Provider, name: string)
    requires ResolveContext(r, p, name).out.Success?
    requires ResolveContext(ResolveContext(r, p, name).reg, p, name).out.Success?
    ensures var s1 := ResolveContext(r, p, name);
            var s2 := ResolveContext(s1.reg, p, name);
            && s1.out.value != s2.out.value
            && s1.out.value.factory == s2.out.value.factory == s2.reg.emfs[name]
            && |s2.reg.builds| <= |r.builds| + 1
  {
  }

  /** `cleanup` with a provider whose `close()` returns normally: every cached
      factory is closed exactly once more, nothing else is closed, and the
      cache keeps all of them. */
  lemma CleanupClosesEachOnce(r: Registry, build: (string, nat) -> BuildResult, order: seq<string>)
    requires Valid(r)
    requires Enumerates(order, r.emfs)
    ensures var s := Cleanup(r, Lenient(build), order);
            && s.out.Success?
            && s.reg.emfs == r.emfs
            && forall h :: TimesClosed(s.reg, h) == TimesClosed(r, h) + (if h in r.emfs.Values then 1 else 0)
  {
    var p := Lenient(build);
    var s := Cleanup(r, p, order);
    assert forall j :: 0 <= j < |order| ==> !ThrowsAt(r, p, order, j);
    forall h ensures TimesClosed(s.reg, h) == TimesClosed(r, h) + (if h in r.emfs.Values then 1 else 0) {
      HandlesCount(r.emfs, order, h);
      assert h in r.emfs.Values <==> h.unit in order && r.emfs[h.unit] == h;
    }
  }

  /** `cleanup` does not clear the cache, so a second `cleanup` closes every
      factory a second time. */
  lemma CleanupTwiceClosesTwice(r: Registry, build: (string, nat) -> BuildResult, order: seq<string>)
    requires Valid(r)
    requires Enumerates(order, r.emfs)
    ensures var s1 := Cleanup(r, Lenient(build), order);
            var s2 := Cleanup(s1.reg, Lenient(build), order);
            && s2.out.Success?
            && s2.reg.emfs == r.emfs
            && forall h :: TimesClosed(s2.reg, h) == TimesClosed(r, h) + (if h in r.emfs.Values then 2 else 0)
  {
    var s1 := Cleanup(r, Lenient(build), order);
    CleanupClosesEachOnce(r, build, order);
    CleanupKeepsValid(r, Lenient(build), order);
    CleanupClosesEachOnce(s1.reg, build, order);
  }

  /** With a provider that follows the JPA interface strictly, the first
      `cleanup` of a never-closed cache succeeds, and a second one throws at
      the first factory it meets, after calling `close()` on it a second time. */
  lemma StrictSecondCleanupThrows(r: Registry, build: (string, nat) -> BuildResult, order: seq<string>)
    requires Valid(r)
    requires Enumerates(order, r.emfs)
    requires r.closes == []
    requires order != []
    ensures var s1 := Cleanup(r, Strict(build), order);
            var s2 := Cleanup(s1.reg, Strict(build), order);
            && s1.out.Success?
            && s2.out == Failure(CloseFailed(r.emfs[order[0]]))
            && TimesClosed(s2.reg, r.emfs[order[0]]) == 2
  {
    var s1 := Cleanup(r, Strict(build), order);
    StrictFirstCleanupSucceeds(r, build, order);
    var h := r.emfs[order[0]];
    HandlesCount(r.emfs, order, h);
    StrictCleanupThrowsOnClosedFirst(s1.reg, build, order);
  }

  /** A strict `cleanup` whose first factory is already closed throws at once,
      after one `close()` on that factory. */
  lemma StrictCleanupThrowsOnClosedFirst(r: Registry, build: (string, nat) -> BuildResult, order: seq<string>)
    requires Enumerates(order, r.emfs)
    requires order != []
    requires TimesClosed(r, r.emfs[order[0]]) > 0
    ensures var s := Cleanup(r, Strict(build), order);
            && s.out == Failure(CloseFailed(r.emfs[order[0]]))
            && s.reg.closes == r.closes + [r.emfs[order[0]]]
  {
  }

  /** On a cache none of whose factories has been closed, a strict provider's
      `close()` never throws during the first `cleanup`. */
  lemma StrictFirstCleanupSucceeds(r: Registry, build: (string, nat) -> BuildResult, order: seq<string>)
    requires Valid(r)
    requires Enumerates(order, r.emfs)
    requires forall i :: 0 <= i < |order| ==> r.emfs[order[i]] !in r.closes
    ensures Cleanup(r, Strict(build), order).out.Success?
  {
    forall j | 0 <= j < |order| ensures !ThrowsAt(r, Strict(build), order, j) {
      TurnSeesEarlierCloses(r, order, j);
      assert multiset(r.closes)[r.emfs[order[j]]] == 0;
    }
  }

  /** At its `j`-th turn the loop has not yet closed the `j`-th factory, so
      `close()` sees exactly the closes made before `cleanup` began. */
  lemma TurnSeesEarlierCloses(r: Registry, order: seq<string>, j: nat)
    requires Valid(r)
    requires Enumerates(order, r.emfs)
    requires j < |order|
    ensures TimesClosed(Before(r, order, j), r.emfs[order[j]]) == TimesClosed(r, r.emfs[order[j]])
  {
    var h := r.emfs[order[j]];
    HandlesCount(r.emfs, order[..j], h);
    assert h.unit !in order[..j];
  }

  /** After a `cleanup` that completed, a resolve still answers from the
      cache: it returns the factory that was just closed and calls no
      bootstrap. */
  lemma ResolveAfterCleanupIsStale(r: Registry, p: Provider, q: Provider, order: seq<string>, name: string)
    requires Valid(r)
    requires Enumerates(order, r.emfs)
    requires name in r.emfs
    requires Cleanup(r, p, order).out.Success?
    ensures var s := Cleanup(r, p, order);
            var t := Resolve(s.reg, q, name);
            && t.out == Success(r.emfs[name])
            && t.reg.builds == r.builds
            && TimesClosed(t.reg, r.emfs[name]) == TimesClosed(r, r.emfs[name]) + 1
  {
    HandlesCount(r.emfs, order, r.emfs[name]);
  }

  /** With a strict provider, an entity manager asked for after a `cleanup`
      that completed cannot be had: the stale factory refuses it, and
      nothing is rebuilt. */
  lemma StrictContextAfterCleanupThrows(r: Registry, build: (string, nat) -> BuildResult, order: seq<string>, name: string)
    requires Valid(r)
    requires Enumerates(order, r.emfs)
    requires name in r.emfs
    requires Cleanup(r, Strict(build), order).out.Success?
    ensures var s := Cleanup(r, Strict(build), order);
            var t := ResolveContext(s.reg, Strict(build), name);
            && t.out == Failure(DeriveFailed(r.emfs[name]))
            && t.reg.builds == r.builds
  {
    HandlesCount(r.emfs, order, r.emfs[name]);
  }
}

=== FILE: references.dfy ===
/** The `ResourceReferenceFactory` / `ResourceReference` wrappers that
    `registerPersistenceContextInjectionPoint` and
    `registerPersistenceUnitInjectionPoint` hand to the injection container:
    `getInstance` goes back to the cache, `release` does nothing. */
module ResourceReferences {
  import opened Foreign
  import opened ServiceProvider

  /** The JPA annotations present on an injection point, each given by its
      `unitName` attribute. */
  datatype Annotated = Annotated(persistenceContext: Option<string>, persistenceUnit: Option<string>)

  /** Which of the two registration calls produced a reference. */
  datatype Kind = ContextKind | UnitKind

  /** The factory object returned by a `register*InjectionPoint` call. */
  datatype ReferenceFactory = ReferenceFactory(kind: Kind, ip: Annotated)

  /** A reference made by `createResource`; it holds nothing but the
      injection point it was registered for. */
  datatype Reference = Reference(kind: Kind, ip: Annotated)

  /** What `getInstance` hands out: a factory or an entity manager. */
  datatype Instance = Factory(handle: Handle) | EntityManager(manager: Manager)

  /** `registerPersistenceContextInjectionPoint`: every reference the
      returned factory creates is a persistence-context reference to `ip`. */
  function RegisterPersistenceContextInjectionPoint(ip: Annotated): (f: ReferenceFactory)
    ensures CreateResource(f) == Reference(ContextKind, ip)
  {
    ReferenceFactory(ContextKind, ip)
  }

  /** `registerPersistenceUnitInjectionPoint`: every reference the returned
      factory creates is a persistence-unit reference to `ip`. */
  function RegisterPersistenceUnitInjectionPoint(ip: Annotated): (f: ReferenceFactory)
    ensures CreateResource(f) == Reference(UnitKind, ip)
  {
    ReferenceFactory(UnitKind, ip)
  }

  /** `createResource`: a new reference that captures the factory's injection
      point and kind, and nothing else. */
  function CreateResource(f: ReferenceFactory): (ref: Reference)
    ensures ref.kind == f.kind && ref.ip == f.ip
  {
    Reference(f.kind, f.ip)
  }

  /** The annotation a reference of the given kind is registered for. */
  function AnnotationFor(kind: Kind, ip: Annotated): Option<string>
  {
    match kind
    case ContextKind => ip.persistenceContext
    case UnitKind => ip.persistenceUnit
  }

  /** The unit-name lookup as the code does it: `@PersistenceContext` is
      read whatever the kind of injection point, and a missing annotation
      dereferences null. */
  function UnitNameAsWritten(ip: Annotated): (r: Result<string>)
    ensures r.Success? <==> ip.persistenceContext.Some?
    ensures r.Success? ==> r.value == ip.persistenceContext.value
    ensures r.Failure? ==> r.error == MissingAnnotation
  {
    match ip.persistenceContext
    case Some(n) => Success(n)
    case None => Failure(MissingAnnotation)
  }

  /** The unit-name lookup as evidently intended: each kind of injection
      point reads its own annotation. */
  function UnitName(kind: Kind, ip: Annotated): (r: Result<string>)
    ensures r.Success? <==> AnnotationFor(kind, ip).Some?
    ensures r.Success? ==> r.value == AnnotationFor(kind, ip).value
    ensures r.Failure? ==> r.error == MissingAnnotation
  {
    match AnnotationFor(kind, ip)
    case Some(n) => Success(n)
    case None => Failure(MissingAnnotation)
  }

  /** For persistence-context injection points the intended lookup is the
      code's lookup, so the correction changes nothing there. */
  lemma UnitNameAgreesOnContextPoints(ip: Annotated)
    ensures UnitName(ContextKind, ip) == UnitNameAsWritten(ip)
  {
  }

  /** A `@PersistenceUnit` injection point without `@PersistenceContext`:
      the code as written throws where the intended lookup finds the name. */
  lemma UnitPointRejectedAsWritten(name: string)
    ensures var ip := Annotated(None, Some(name));
            && UnitNameAsWritten(ip) == Failure(MissingAnnotation)
            && UnitName(UnitKind, ip) == Success(name)
  {
  }

  function AsFactory(o: Result<Handle>): Result<Instance>
  {
    match o
    case Success(h) => Success(Factory(h))
    case Failure(e) => Failure(e)
  }

  function AsManager(o: Result<Manager>): Result<Instance>
  {
    match o
    case Success(m) => Success(EntityManager(m))
    case Failure(e) => Failure(e)
  }

  /** `getInstance` with the code's unit-name lookup: a unit reference goes
      to `resolvePersistenceUnit`, a context reference to
      `resolvePersistenceContext`, both reading `@PersistenceContext`. */
  function GetInstanceAsWritten(ref: Reference, r: Registry, p: Provider): (s: Step<Instance>)
    ensures ref.ip.persistenceContext.None? ==> s == Step(r, Failure(MissingAnnotation))
    ensures ref.kind == UnitKind && ref.ip.persistenceContext.Some? ==>
              var u := Resolve(r, p, ref.ip.persistenceContext.value);
              s.reg == u.reg && s.out == AsFactory(u.out)
    ensures ref.kind == ContextKind && ref.ip.persistenceContext.Some? ==>
              var c := ResolveContext(r, p, ref.ip.persistenceContext.value);
              s.reg == c.reg && s.out == AsManager(c.out)
  {
    match UnitNameAsWritten(ref.ip)
    case Failure(e) => Step(r, Failure(e))
    case Success(name) =>
      match ref.kind
      case UnitKind =>
        var u := Resolve(r, p, name);
        Step(u.reg, AsFactory(u.out))
      case ContextKind =>
        var c := ResolveContext(r, p, name);
        Step(c.reg, AsManager(c.out))
  }

  /** `getInstance` with the intended lookup: exactly a resolve of the
      injection point's unit, of the kind the reference was registered for. */
  function GetInstance(ref: Reference, r: Registry, p: Provider): (s: Step<Instance>)
    ensures AnnotationFor(ref.kind, ref.ip).None? ==> s == Step(r, Failure(MissingAnnotation))
    ensures ref.kind == UnitKind && ref.ip.persistenceUnit.Some? ==>
              var u := Resolve(r, p, ref.ip.persistenceUnit.value);
              s.reg == u.reg && s.out == AsFactory(u.out)
    ensures ref.kind == ContextKind && ref.ip.persistenceContext.Some? ==>
              var c := ResolveContext(r, p, ref.ip.persistenceContext.value);
              s.reg == c.reg && s.out == AsManager(c.out)
  {
    match UnitName(ref.kind, ref.ip)
    case Failure(e) => Step(r, Failure(e))
    case Success(name) =>
      match ref.kind
      case UnitKind =>
        var u := Resolve(r, p, name);
        Step(u.reg, AsFactory(u.out))
      case ContextKind =>
        var c := ResolveContext(r, p, name);
        Step(c.reg, AsManager(c.out))
  }

  /** On context references the corrected `getInstance` is the code's. */
  lemma GetInstanceAgreesOnContextReferences(ip: Annotated, r: Registry, p: Provider)
    ensures var ref := CreateResource(RegisterPersistenceContextInjectionPoint(ip));
            GetInstance(ref, r, p) == GetInstanceAsWritten(ref, r, p)
  {
  }

  /** A unit reference registered for a field annotated only
      `@PersistenceUnit`: as written, `getInstance` throws and touches
      nothing; as intended it takes the unit resolve's step, returning its
      factory when that resolve succeeds. */
  lemma UnitReferenceThrowsAsWritten(name: string, r: Registry, p: Provider)
    ensures var ref := CreateResource(RegisterPersistenceUnitInjectionPoint(Annotated(None, Some(name))));
            && GetInstanceAsWritten(ref, r, p) == Step(r, Failure(MissingAnnotation))
            && GetInstance(ref, r, p).reg == Resolve(r, p, name).reg
            && (Resolve(r, p, name).out.Success? ==>
                  GetInstance(ref, r, p).out == Success(Factory(Resolve(r, p, name).out.value)))
  {
  }

  /** `release` is a no-op. */
  function Release(ref: Reference, r: Registry): (r': Registry)
    ensures r' == r
  {
    r
  }

  /** A unit reference yields the same factory again after a `release`:
      once built, the factory is answered from the cache. */
  lemma UnitReferencesShareFactory(f: ReferenceFactory, r: Registry, p: Provider, q: Provider)
    requires f.kind == UnitKind
    requires GetInstance(CreateResource(f), r, p).out.Success?
    ensures var s1 := GetInstance(CreateResource(f), r, p);
            var s2 := GetInstance(CreateResource(f), Release(CreateResource(f), s1.reg), q);
            s2 == s1
  {
  }
}

=== FILE: registry.dfy ===
/** The persistence-unit factory cache of `JpaServiceProvider`: a map from unit
    name to factory, filled on demand under a lock and closed by `cleanup`.
    Every call is modelled as one atomic transition of a `Registry` value. */
module ServiceProvider {
  import opened Foreign

  /** One call into the JPA bootstrap, and whether it produced a factory. */
  datatype Attempt = Attempt(name: string, built: bool)

  /** The provider's state (`emfs`) together with the history of its calls
      into the foreign code: every bootstrap call in order, every `close()`
      in order, and how many entity managers were handed out. */
  datatype Registry = Registry(
    emfs: map<string, Handle>,
    builds: seq<Attempt>,
    closes: seq<Handle>,
    derived: nat)

  /** The state after a call, and what the call returned or threw. */
  datatype Step<+T> = Step(reg: Registry, out: Result<T>)

  /** The singleton as constructed: an empty `HashMap`, nothing called yet. */
  const Initial: Registry := Registry(map[], [], [], 0)

  /** Number of bootstrap calls made for `name`. */
  function Attempts(log: seq<Attempt>, name: string): nat
  {
    if log == [] then 0
    else Attempts(log[..|log| - 1], name) + (if log[|log| - 1].name == name then 1 else 0)
  }

  /** Number of successful bootstrap calls made for `name`. */
  function Builds(log: seq<Attempt>, name: string): nat
  {
    multiset(log)[Attempt(name, true)]
  }

  /** Number of times `close()` has been called on `h`. */
  function TimesClosed(r: Registry, h: Handle): nat
  {
    multiset(r.closes)[h]
  }

  /** The states the provider can reach: each cached factory is the product of
      a successful bootstrap call for its name, a name has had one successful
      bootstrap call if it is cached and none otherwise, and only cached
      factories get closed. */
  ghost predicate Valid(r: Registry)
  {
    && (forall n :: n in r.emfs ==>
          && r.emfs[n].unit == n
          && r.emfs[n].id < |r.builds|
          && r.builds[r.emfs[n].id] == Attempt(n, true))
    && (forall n :: Builds(r.builds, n) == if n in r.emfs then 1 else 0)
    && (forall k :: 0 <= k < |r.closes| ==> r.closes[k] in r.emfs.Values)
  }

  /** `m2` keeps every entry of `m1` with the same value. */
  ghost predicate Extends(m1: map<string, Handle>, m2: map<string, Handle>)
  {
    forall n :: n in m1 ==> n in m2 && m2[n] == m1[n]
  }

  /** `resolvePersistenceUnit`: under the lock, look the name up; if it is
      absent call the bootstrap, store its factory and return it. A throwing
      bootstrap leaves the map as it was, because `put` comes after it. */
  function Resolve(r: Registry, p: Provider, name: string): (s: Step<Handle>)
    // a cached name is answered from the map, with no call into the bootstrap
    ensures name in r.emfs ==> s == Step(r, Success(r.emfs[name]))
    // an absent name costs exactly one bootstrap call, for that name
    ensures name !in r.emfs ==>
              && s.reg.builds == r.builds + [Attempt(name, s.out.Success?)]
              && (s.out.Success? <==> p.build(name, |r.builds|).Built?)
    ensures s.out.Success? ==> name in s.reg.emfs && s.reg.emfs[name] == s.out.value
    // a built factory is a new object, made for that name
    ensures name !in r.emfs && s.out.Success? ==> s.out.value == Handle(|r.builds|, name)
    // failure propagates and poisons nothing
    ensures s.out.Failure? ==>
              && s.reg.emfs == r.emfs
              && s.out.error == ConstructionFailed(name, p.build(name, |r.builds|).cause)
    // at most the requested key is added; nothing is replaced or removed
    ensures s.reg.emfs.Keys <= r.emfs.Keys + {name}
    ensures Extends(r.emfs, s.reg.emfs)
    ensures s.reg.closes == r.closes && s.reg.derived == r.derived
  {
    if name in r.emfs then Step(r, Success(r.emfs[name]))
    else
      var k := |r.builds|;
      match p.build(name, k)
      case Built =>
        var h := Handle(k, name);
        Step(r.(emfs := r.emfs[name := h], builds := r.builds + [Attempt(name, true)]), Success(h))
      case BuildFailed(cause) =>
        Step(r.(builds := r.builds + [Attempt(name, false)]), Failure(ConstructionFailed(name, cause)))
  }

  /** `resolvePersistenceContext`: resolve the unit, then ask its factory for a
      new entity manager. Managers are never cached. */
  function ResolveContext(r: Registry, p: Provider, name: string): (s: Step<Manager>)
    // the unit step is exactly a resolve
    ensures s.reg.emfs == Resolve(r, p, name).reg.emfs
    ensures s.reg.builds == Resolve(r, p, name).reg.builds
    ensures s.reg.closes == r.closes
    // a cached unit is never rebuilt
    ensures name in r.emfs ==> s.reg.emfs == r.emfs && s.reg.builds == r.builds
    // every success hands out a manager not handed out before, on the cached factory
    ensures s.out.Success? ==>
              && name in s.reg.emfs
              && s.out.value == Manager(r.derived, s.reg.emfs[name])
              && s.reg.derived == r.derived + 1
    ensures s.out.Failure? ==> s.reg.derived == r.derived
    // a failed construction propagates unchanged
    ensures var u := Resolve(r, p, name);
            u.out.Failure? ==> s.out == Failure(u.out.error)
    // once the unit is resolved, the call succeeds exactly when the factory
    // agrees to create an entity manager, and a refusal is reported as such
    ensures var u := Resolve(r, p, name);
            u.out.Success? ==>
              && (s.out.Success? <==> !p.deriveThrows(u.out.value, TimesClosed(r, u.out.value)))
              && (s.out.Failure? ==> s.out.error == DeriveFailed(u.out.value))
  {
    var u := Resolve(r, p, name);
    match u.out
    case Failure(e) => Step(u.reg, Failure(e))
    case Success(h) =>
      if p.deriveThrows(h, TimesClosed(u.reg, h)) then Step(u.reg, Failure(DeriveFailed(h)))
      else Step(u.reg.(derived := u.reg.derived + 1), Success(Manager(u.reg.derived, h)))
  }

  /** `order` lists every key of `m` exactly once: the iteration order of the
      `HashMap`'s entry set, which the model leaves open. */
  predicate Enumerates(order: seq<string>, m: map<string, Handle>)
  {
    && (forall i :: 0 <= i < |order| ==> order[i] in m)
    && (forall n :: n in m ==> n in order)
    && (forall i, j :: 0 <= i < j < |order| ==> order[i] != order[j])
  }

  /** The factories met along `order`. */
  function Handles(m: map<string, Handle>, order: seq<string>): seq<Handle>
    requires forall i :: 0 <= i < |order| ==> order[i] in m
  {
    seq(|order|, i requires 0 <= i < |order| => m[order[i]])
  }

  /** The state in which `cleanup`'s loop makes its `j`-th `close()`: the
      factories of the first `j` names have been closed, in order. */
  function Before(r: Registry, order: seq<string>, j: nat): Registry
    requires j <= |order|
    requires forall i :: 0 <= i < |order| ==> order[i] in r.emfs
  {
    r.(closes := r.closes + Handles(r.emfs, order[..j]))
  }

  /** Whether the `close()` on the `j`-th name's factory throws, when the loop
      gets that far. */
  predicate ThrowsAt(r: Registry, p: Provider, order: seq<string>, j: nat)
    requires j < |order|
    requires forall i :: 0 <= i < |order| ==> order[i] in r.emfs
  {
    p.closeThrows(r.emfs[order[j]], TimesClosed(Before(r, order, j), r.emfs[order[j]]))
  }

  /** The turn, from the `j`-th on, at which the loop meets its first
      throwing `close()`; `|order|` when none throws. */
  function FirstThrow(r: Registry, p: Provider, order: seq<string>, j: nat): (k: nat)
    requires j <= |order|
    requires forall i :: 0 <= i < |order| ==> order[i] in r.emfs
    ensures j <= k <= |order|
    ensures k < |order| ==> ThrowsAt(r, p, order, k)
    ensures forall i :: j <= i < k ==> !ThrowsAt(r, p, order, i)
    decreases |order| - j
  {
    if j == |order| || ThrowsAt(r, p, order, j) then j else FirstThrow(r, p, order, j + 1)
  }

  /** `cleanup`'s loop from its `j`-th turn on, entered in the state
      `Before(r, order, j)`: close each remaining factory in turn; an
      exception from `close()` leaves the loop at once. */
  function CloseFrom(r: Registry, p: Provider, order: seq<string>, j: nat): (s: Step<()>)
    requires j <= |order|
    requires forall i :: 0 <= i < |order| ==> order[i] in r.emfs
    // the loop stops right after the first close() that throws, or at the end
    ensures var k := FirstThrow(r, p, order, j);
            s == if k == |order| then Step(Before(r, order, k), Success(()))
                 else Step(Before(r, order, k + 1), Failure(CloseFailed(r.emfs[order[k]])))
    decreases |order| - j
  {
    if j == |order| then Step(Before(r, order, j), Success(()))
    else if ThrowsAt(r, p, order, j) then
      Step(Before(r, order, j + 1), Failure(CloseFailed(r.emfs[order[j]])))
    else
      CloseFrom(r, p, order, j + 1)
  }

  /** The loop run from its first turn: it stops at the first throwing
      turn, having closed the factories up to and including it, or closes
      every factory. */
  lemma CloseFromStart(r: Registry, p: Provider, order: seq<string>)
    requires forall i :: 0 <= i < |order| ==> order[i] in r.emfs
    ensures var s := CloseFrom(r, p, order, 0);
            var k := FirstThrow(r, p, order, 0);
            && s.reg == r.(closes := s.reg.closes)
            && (s.out.Success? <==> k == |order|)
            && (k == |order| ==> s.reg.closes == r.closes + Handles(r.emfs, order))
            && (k < |order| ==>
                  && s.out == Failure(CloseFailed(r.emfs[order[k]]))
                  && s.reg.closes == r.closes + Handles(r.emfs, order[..k + 1]))
  {
    assert order[..|order|] == order;
  }

  /** `cleanup`: close every cached factory, in the map's iteration order.
      The map is not cleared, so the factories stay cached after they are
      closed; the lock is not taken. */
  function Cleanup(r: Registry, p: Provider, order: seq<string>): (s: Step<()>)
    requires Enumerates(order, r.emfs)
    // only close() is called: the map, the build log and the managers stay
    ensures s.reg == r.(closes := s.reg.closes)
    // success exactly when no close() throws, having closed every factory
    ensures s.out.Success? <==> forall j :: 0 <= j < |order| ==> !ThrowsAt(r, p, order, j)
    ensures s.out.Success? ==> s.reg.closes == r.closes + Handles(r.emfs, order)
    // failure at the first close() that throws, with the closes up to it made
    ensures var k := FirstThrow(r, p, order, 0);
            s.out.Failure? ==>
              && k < |order|
              && ThrowsAt(r, p, order, k)
              && (forall j :: 0 <= j < k ==> !ThrowsAt(r, p, order, j))
              && s.out == Failure(CloseFailed(r.emfs[order[k]]))
              && s.reg.closes == r.closes + Handles(r.emfs, order[..k + 1])
  {
    CloseFromStart(r, p, order);
    CloseFrom(r, p, order, 0)
  }
}
